=== FILE: README.md ===
# MCUnzip extraction core, in Dafny

MCUnzip extracts a zipped Minecraft resource pack into a folder next to the
archive and reports progress as it goes. This project models the extraction
core, `MCUnzip.extract` with its helpers `size` and `getEntryName`, and proves
properties of that model:

- **Destination naming.** The folder name is the archive's file name up to its
  first `.`. The names `base`, `base (2)`, `base (3)`, … are then tried against
  the names already in the parent directory, and the first free one is kept.
  This is `Destination`. The existing names are a finite set. The probing loop
  is a total function, and a pigeonhole argument shows that it stops: the
  candidates are pairwise distinct, so at most (number of existing names) + 2 of them are tried.
- **Entry names.** `getEntryName` keeps the text after the last `/`, else after
  the last `\`, else the whole name. This is `Paths.EntryName`.
- **Extraction loop.** `Extraction.Extract` first counts the entries (`size`).
  Then, for each entry in archive order, it records one listener call, carrying
  the count `k` and total `N` (the fraction `k/N`) and the filesystem as the
  listener sees it. After that it materialises the entry. A directory entry
  creates only the parent of its mapped path. A file entry is buffered, its
  parent chain is created, any existing file at the target is deleted, and the
  buffer is written. The filesystem (`FileSystems`) is a set of directory paths
  plus a map from file paths to bytes. `MaterializeAll` is the reference fold
  the method is proved equal to.

Modules: `Strings` (indexOf / lastIndexOf), `Decimal` (the rendering of the
collision index), `Destination`, `Paths`, `FileSystems`, `Extraction`.

Conventions fixed by the model:

- Paths are absolute, written as sequences of components. The host separator
  is `/`. `new File(base, name)` appends the non-empty `/`-separated segments
  of `name`, as `java.io.File` normalises repeated and trailing separators. A
  `\` is an ordinary character.
- The archive has a parent directory, and the folder is created in it. The
  empty folder name (archive `.zip`) denotes that parent directory itself,
  which exists. So `.zip` is extracted to ` (2)`.
- The filesystem keys files and directories by their `java.io.File`
  pathnames. The host resolves `.` and `..` when it opens a pathname, and
  `File.mkdirs()` also resolves them when creating the directory directly
  fails. `Paths.Normalize` models the resolution for file targets, and
  `Extraction.HostTarget` is the file a file entry's bytes reach on the
  host. `FileSystems.Mkdirs` works on the literal pathname (see "Left out").
- Names are compared exactly, character by character, as on a
  case-sensitive filesystem without Unicode normalisation.
- Progress fractions are compared exactly, as pairs of naturals, not as doubles.

Behaviours of the code that the model keeps:

- An empty archive does not create its destination folder. No `mkdirs` call
  runs, so the folder exists afterwards only if some entry's name has a
  component (`Extraction.RootCreatedIff`).
- A directory entry such as `assets/` creates only its parent. An empty
  directory entry therefore leaves no folder behind
  (`Extraction.DirectoryLeafNotCreated`).
- A name that uses only `\` separators, such as `textures\stone.png`, is written
  directly under the destination folder as `stone.png` on a `/`-separator host
  (`Extraction.BackslashNameFlattened`).
- Entry names are not checked for `..` components. Once the destination
  folder exists, an entry named `../x` is written next to it rather than
  inside it (`Extraction.ParentEntryEscapes`).

## Model

| member | source | states |
|---|---|---|
| `Strings.IndexOf` | src/main/java/com/loohp/mcunzip/MCUnzip.java:191-192 | the result is -1 exactly when the character is absent; otherwise it holds the character and no earlier position does |
| `Strings.LastIndexOf` | src/main/java/com/loohp/mcunzip/MCUnzip.java:262-270 | the result is -1 exactly when the character is absent; otherwise it holds the character and no later position does |
| `Decimal.FromNat` | src/main/java/com/loohp/mcunzip/MCUnzip.java:197 | the rendering of the collision index is a non-empty string of digits without a leading zero |
| `Destination.Candidate` | src/main/java/com/loohp/mcunzip/MCUnzip.java:194-197 | every candidate name extends the base name, and it is the base name itself exactly for the first candidate |
| `Destination.BaseName` | src/main/java/com/loohp/mcunzip/MCUnzip.java:190-193 | the folder name is a prefix of the archive file name, has no `.`, and is either the whole name or is followed by a `.` |
| `Destination.BaseNameUnique` | src/main/java/com/loohp/mcunzip/MCUnzip.java:190-193 | those facts determine the folder name: it is the longest dot-free prefix, cut at the first `.` |
| `Decimal.ToNatFromNat` | src/main/java/com/loohp/mcunzip/MCUnzip.java:197 | reading back the decimal rendering of the collision index gives the index |
| `Decimal.FromNatInjective` | src/main/java/com/loohp/mcunzip/MCUnzip.java:197 | distinct indices render as distinct numerals |
| `Destination.CandidateInjective` | src/main/java/com/loohp/mcunzip/MCUnzip.java:194-197 | no candidate name (`base`, `base (2)`, …) is tried twice |
| `Destination.BelowSize` | src/main/java/com/loohp/mcunzip/MCUnzip.java:195-197 | the k-1 names tried before the k-th are distinct |
| `Destination.Probe` | src/main/java/com/loohp/mcunzip/MCUnzip.java:195-201 | the probing loop terminates on any finite set and returns the first index whose candidate is absent; every candidate before it is taken |
| `Destination.ProbeBound` | src/main/java/com/loohp/mcunzip/MCUnzip.java:195-201 | pigeonhole: at most (size of taken) + 1 candidates are checked |
| `Destination.DestinationIndex` | src/main/java/com/loohp/mcunzip/MCUnzip.java:194-201 | the chosen index is at least 1 (the bare base name; a `(1)` suffix never occurs), its candidate is free, all earlier ones exist, and it is at most (number of existing names) + 2 |
| `Destination.DestinationName` | src/main/java/com/loohp/mcunzip/MCUnzip.java:190-201 | the destination name is not an existing sibling and not empty; it extends the base name, has no `.`, and equals the base name exactly when the base name is free; otherwise it is `base (k)` for some k from 2 to (number of existing names) + 2 |
| `Destination.ExampleFree` | src/main/java/com/loohp/mcunzip/MCUnzip.java:190-201 | `Pack.zip` with no siblings goes to `Pack` |
| `Destination.ExampleFirstDot` | src/main/java/com/loohp/mcunzip/MCUnzip.java:190-193 | `my.pack.v2.zip` goes to `my`, because the name is cut at the first dot |
| `Destination.SecondCandidateChosen` | src/main/java/com/loohp/mcunzip/MCUnzip.java:194-201 | next to an existing `base`, with `base (2)` free, the destination is `base (2)` |
| `Destination.ThirdCandidateChosen` | src/main/java/com/loohp/mcunzip/MCUnzip.java:194-201 | next to existing `base` and `base (2)`, with `base (3)` free, the destination is `base (3)` |
| `Destination.ExampleHiddenFile` | src/main/java/com/loohp/mcunzip/MCUnzip.java:190-201 | `.zip` has an empty base, which names the existing parent, so it goes to ` (2)` |
| `Paths.Components` | src/main/java/com/loohp/mcunzip/MCUnzip.java:211 | the path segments of an entry name are non-empty and contain no separator |
| `Paths.ComponentsAppend` | src/main/java/com/loohp/mcunzip/MCUnzip.java:211 | a separator followed by a non-empty, separator-free part adds that part as the last segment, whatever precedes it, so leading and doubled separators add nothing |
| `Paths.ComponentsTrailing` | src/main/java/com/loohp/mcunzip/MCUnzip.java:211 | a trailing `/` adds no segment |
| `Paths.ComponentsOfPlainName` | src/main/java/com/loohp/mcunzip/MCUnzip.java:211 | a name without `/` is one segment, or none when it is empty. With the two rows above, this fixes the segments of every name |
| `Paths.ComponentsOfJoin` | src/main/java/com/loohp/mcunzip/MCUnzip.java:211 | joining components with `/` and splitting again gives the components back |
| `Paths.EntryName` | src/main/java/com/loohp/mcunzip/MCUnzip.java:262-272 | the result is a suffix of the name without `/`, preceded by the last `/` when there is one; without `/` it has no `\` and is preceded by the last `\`; with neither it is the whole name |
| `Paths.LastComponentIsEntryName` | src/main/java/com/loohp/mcunzip/MCUnzip.java:262-272 | for a name that does not end in `/` and uses `/` whenever it uses `\`, the entry name is its last path component |
| `Paths.Resolve` | src/main/java/com/loohp/mcunzip/MCUnzip.java:211 | `new File(base, name)` extends `base` by exactly the segments of `name` |
| `Paths.Parent` | src/main/java/com/loohp/mcunzip/MCUnzip.java:211 | `getParentFile()` is the path without its last component |
| `FileSystems.Exists` | src/main/java/com/loohp/mcunzip/MCUnzip.java:195-196 | a path that exists in a well-formed filesystem has every ancestor present as a directory |
| `FileSystems.Children` | src/main/java/com/loohp/mcunzip/MCUnzip.java:196 | a name is listed exactly when a file or directory of that name exists in the directory |
| `FileSystems.Mkdirs` | src/main/java/com/loohp/mcunzip/MCUnzip.java:212 | `mkdirs` makes the path and all its ancestors directories, changes no file, and adds no other directory |
| `FileSystems.MkdirsPreservesWellFormed` | src/main/java/com/loohp/mcunzip/MCUnzip.java:212 | after `mkdirs`, every directory's ancestors are still directories |
| `FileSystems.Delete` | src/main/java/com/loohp/mcunzip/MCUnzip.java:228-230 | deleting a file removes exactly that file |
| `FileSystems.Create` | src/main/java/com/loohp/mcunzip/MCUnzip.java:258-260 | copying into an absent target makes it hold exactly the bytes and changes nothing else |
| `Extraction.DestinationRoot` | src/main/java/com/loohp/mcunzip/MCUnzip.java:190-201 | the destination folder is a sibling of the archive that does not exist yet |
| `Extraction.EntryFolder` | src/main/java/com/loohp/mcunzip/MCUnzip.java:225 | the folder an entry creates lies under the destination folder when the name has a segment, and is the destination folder's parent otherwise |
| `Extraction.FileTarget` | src/main/java/com/loohp/mcunzip/MCUnzip.java:225-227 | a file entry's pathname lies under the destination folder, or is the folder's parent when the name has no segment |
| `Extraction.MaterializeDirectory` | src/main/java/com/loohp/mcunzip/MCUnzip.java:210-212 | a directory entry creates the parent of its mapped path and that parent's ancestors, nothing else, and changes no file |
| `Extraction.DirectoryLeafNotCreated` | src/main/java/com/loohp/mcunzip/MCUnzip.java:210-212 | a directory entry does not create its own leaf directory |
| `Extraction.MaterializeFile` | src/main/java/com/loohp/mcunzip/MCUnzip.java:213-231 | after a file entry, its target holds exactly the entry's bytes, replacing any earlier file. The target's ancestor chain exists, no other file changes, and only ancestors of the entry's folder are added as directories |
| `Extraction.SlashNameTarget` | src/main/java/com/loohp/mcunzip/MCUnzip.java:214-227 | for a `/`-separated name not ending in `/`, the file is written at root/name |
| `Extraction.BackslashNameFlattened` | src/main/java/com/loohp/mcunzip/MCUnzip.java:214-227 | a name that uses only `\` is written directly under the root as its last `\`-segment, not at root/name |
| `Extraction.PlainNameTarget` | src/main/java/com/loohp/mcunzip/MCUnzip.java:214-227 | a name with single `/` separators, no `\` and no `.` or `..` component is written at root/name |
| `Extraction.PlainNamesDistinctTargets` | src/main/java/com/loohp/mcunzip/MCUnzip.java:214-227 | distinct plain names are written at distinct paths |
| `Extraction.FileTargetInsideRoot` | src/main/java/com/loohp/mcunzip/MCUnzip.java:225-227 | a file entry with a non-empty leaf name gets a `java.io.File` pathname strictly inside the destination folder, before the host resolves `..` |
| `Extraction.DestinationRootNormal` | src/main/java/com/loohp/mcunzip/MCUnzip.java:194-197 | an archive path without `.` or `..` components gives a destination folder without them, because the folder name is non-empty and has no dot |
| `Extraction.HostTarget` | src/main/java/com/loohp/mcunzip/MCUnzip.java:227-231 | the host-resolved target has no `.` or `..` components, and it is the `java.io.File` pathname itself when that pathname has none |
| `Extraction.HostTargetInsideRoot` | src/main/java/com/loohp/mcunzip/MCUnzip.java:225-231 | on the host, a file entry with no `..` component and a leaf other than `.` and `..` is written strictly inside the destination folder |
| `Extraction.ParentEntryEscapes` | src/main/java/com/loohp/mcunzip/MCUnzip.java:225-231 | on the host, once the destination folder exists, an entry named `../leaf` is written at the folder's parent plus `leaf`, not inside the folder |
| `Extraction.PlainNameHostTarget` | src/main/java/com/loohp/mcunzip/MCUnzip.java:225-231 | for a plain name, the host opens exactly root/name, so on a case-sensitive host distinct plain names reach distinct host files |
| `Paths.WalkStaysBelow` | src/main/java/com/loohp/mcunzip/MCUnzip.java:225-231 | resolving components that contain no `..` never leaves the starting directory, and ends strictly below it when the last component is not `.` |
| `Paths.NormalizeNormal` | src/main/java/com/loohp/mcunzip/MCUnzip.java:225-231 | a pathname without `.` or `..` components is opened as written |
| `Extraction.Materialize` | src/main/java/com/loohp/mcunzip/MCUnzip.java:209-232 | one loop iteration adds directories only; a directory entry changes no file, and a file entry leaves exactly its bytes at its target |
| `Extraction.MaterializeAll` | src/main/java/com/loohp/mcunzip/MCUnzip.java:206-233 | the whole loop keeps every existing directory and every existing file path |
| `Extraction.ProgressTrace` | src/main/java/com/loohp/mcunzip/MCUnzip.java:203-208 | one listener call per entry, the i-th carrying count i+1 and the total |
| `Extraction.Size` | src/main/java/com/loohp/mcunzip/MCUnzip.java:238-245 | `size` returns exactly the number of elements in the enumeration |
| `Extraction.ReadFully` | src/main/java/com/loohp/mcunzip/MCUnzip.java:215-223 | whatever positive number of bytes, up to 4096, each read returns, the buffer ends up holding exactly the entry's bytes |
| `Extraction.MaterializeEntry` | src/main/java/com/loohp/mcunzip/MCUnzip.java:209-232 | one loop body, with the file's bytes buffered at any read pace before they are written, has the same effect as the reference step `Materialize` |
| `Extraction.Extract` | src/main/java/com/loohp/mcunzip/MCUnzip.java:189-236 | extraction returns the fresh destination folder and the filesystem produced by materialising the entries in order. It makes one listener call per entry, in archive order; the k-th call carries k/N and sees the filesystem left by the first k-1 entries. Fractions lie in (0,1], strictly increase and end at 1, and there are no calls when N=0 |
| `Extraction.ProgressTraceAt` | src/main/java/com/loohp/mcunzip/MCUnzip.java:203-208 | the i-th listener call carries count i+1 of N, the i-th entry, and the filesystem before that entry is materialised |
| `Extraction.ProgressFractions` | src/main/java/com/loohp/mcunzip/MCUnzip.java:203-208 | a trace whose i-th call carries (i+1)/N has fractions in (0,1], strictly increasing, the last one equal to 1 |
| `Extraction.MaterializeAllGrows` | src/main/java/com/loohp/mcunzip/MCUnzip.java:206-233 | extraction removes no directory or file, and every file entry's target exists afterwards. Files and directories are separate namespaces here (see "Left out") |
| `Extraction.FilesUntouched` | src/main/java/com/loohp/mcunzip/MCUnzip.java:206-233 | a path that no file entry targets keeps its presence and contents |
| `Extraction.LastWriteWins` | src/main/java/com/loohp/mcunzip/MCUnzip.java:225-231 | a file entry that no later entry overwrites leaves its target holding exactly its bytes |
| `Extraction.ExtractedFilesMatchEntries` | src/main/java/com/loohp/mcunzip/MCUnzip.java:206-233 | round trip: when the file entries have distinct plain names (no `.` or `..` components, so on a case-sensitive host no two of them name one host file), every file entry's bytes end up unchanged at root/name |
| `Extraction.MaterializePreservesWellFormed` | src/main/java/com/loohp/mcunzip/MCUnzip.java:209-232 | one entry keeps every directory's and file's ancestors as directories |
| `Extraction.MaterializeAllPreservesWellFormed` | src/main/java/com/loohp/mcunzip/MCUnzip.java:206-233 | the whole extraction keeps that invariant: parent directories exist before files are written into them |
| `Extraction.RootCreatedIff` | src/main/java/com/loohp/mcunzip/MCUnzip.java:202-235 | the destination folder exists afterwards exactly when some entry's name has a component, so an empty archive creates nothing |
| `Extraction.SecondExtractionNewFolder` | src/main/java/com/loohp/mcunzip/MCUnzip.java:194-201 | extracting the same archive again, after the first extraction created its folder, picks a different folder |
| `Extraction.SecondExtractionLeavesFirstAlone` | src/main/java/com/loohp/mcunzip/MCUnzip.java:194-233 | that second extraction leaves every file under the first folder unchanged, whatever the names of its entries |
| `Extraction.TargetOutsideSibling` | src/main/java/com/loohp/mcunzip/MCUnzip.java:225-227 | a file entry extracted into one folder is never written under a different folder at the same depth, even when its leaf name is empty |

## Left out

- The GUI mode: file chooser, Swing frame, progress bar, icon loading and dialogs. This is presentation only.
- The command-line mode: argument checks, console output and the floor-rounded percentage format. This is presentation and floating point.
- The persisted last-directory setting. This is configuration I/O through an external library.
- Zip parsing and streams (`ZipFile`, `ZipEntry`, `InputStream`). The archive is taken as an already decoded list of entries, so archive open and read errors are not modelled. The listener's own reads of an entry are not modelled either, because entries are immutable values.
- Entry kinds are taken as given. In `java.util.zip`, an entry is a directory exactly when its name ends in `/`. The model keeps the flag separate, as the extraction loop only reads the flag.
- I/O failures and clashes between a file and a directory at one path are not modelled. The model keeps directories and files as separate namespaces, and every write succeeds. On a host, the outcomes differ from the model as follows:
  - A directory entry whose `mkdirs` is blocked by an existing file makes no directory, and extraction goes on, because the result of `mkdirs` is ignored. The model records the directory next to the file.
  - A file entry whose target is an empty directory deletes that directory and writes the file. The model keeps the directory and adds the file.
  - A file entry whose target is a non-empty directory, or whose folder is blocked by a file, aborts extraction with an exception. The model goes on.
  - A failed write aborts extraction. The model has no failing writes.
- Extraction.MaterializeAllGrows: "no directory is removed" holds for the model's separate namespaces. On a host, a file entry removes an empty directory at its target.
- An archive given by a bare file name, as the command line allows with `new File(args[0])`, has no parent (`getParent()` is null). The folder is then resolved against the working directory, and `.zip` maps to `new File(null, "")`, the empty pathname, rather than to ` (2)`. The model always gives the archive a parent path.
- FileSystems.Mkdirs: this adds every prefix of the literal pathname. `File.mkdirs()` first tries the literal path. If that fails, it resolves `.` and `..` and creates only the missing ancestors of the resolved path. For a directory entry `x/../y/`, the model records `root/x`, which the host never creates. For a lone entry `../d/`, the model records the destination folder, while the host resolves to the existing parent and creates nothing.
- Extraction.RootCreatedIff: this is about literal pathnames. On a host, an archive whose only named entries go up with `..`, such as a lone `../d/`, does not create the destination folder. A second extraction then picks the same folder name, so `Extraction.SecondExtractionNewFolder` does not hold there either.
- Extraction.SecondExtractionLeavesFirstAlone: this holds for the model's literal pathnames. On a host, an entry of the second archive named `../<first folder>/x` writes into the first folder (`Extraction.ParentEntryEscapes`). The host-level guarantee is `Extraction.HostTargetInsideRoot`, which requires names without `..` components.
- Extraction.FileTargetInsideRoot: this is about `java.io.File` pathnames. The host-level statement is `Extraction.HostTargetInsideRoot`.
- Paths.Normalize: the model resolves `..` lexically, but the host resolves it through the directories that exist. A `..` after a missing directory makes the write fail, and extraction aborts. Symbolic links are not modelled either.
- Extraction.ParentEntryEscapes: this holds once the destination folder exists. If the first entry of an archive is the file `../leaf`, `mkdirs` of `root/..` creates nothing and the folder is still missing. `Files.copy` to `root/../leaf` then fails, and extraction aborts. The model writes the bytes at `root + ["..", leaf]` and records `root`. A file entry `x/../y` whose `root/x` is missing fails in the same way.
- Names are compared exactly, as on a case-sensitive filesystem. On a case-insensitive or Unicode-normalising filesystem, as macOS and Windows have by default, names that differ only in case or normal form refer to one file. There, `exists()` sees a sibling `pack`, so `Pack.zip` goes to `Pack (2)` while `Destination.DestinationName` gives `Pack`. Entries `A.png` and `a.png` likewise reach one file.
- Destination.DestinationName: "not an existing sibling" compares names exactly. On a case-insensitive host the chosen name can denote an existing folder that differs only in case.
- Extraction.PlainNameHostTarget: "distinct plain names reach distinct host files" holds on a case-sensitive host only, as the line above explains.
- Extraction.ExtractedFilesMatchEntries: the round trip holds on a case-sensitive host only. On a case-insensitive host, two plain names that differ only in case overwrite one file.
- The race between the existence check and the later folder creation.
- `java.io.File` behaviour on other hosts, such as `\` acting as a separator on Windows. The model fixes `/` as the only separator.
- Extraction.Extract: the progress fraction is the `double` quotient `count / total`. The model keeps the exact pair and compares fractions by cross-multiplication.
- Extraction.Extract: `count`, `totalEntries` and the probe index `i` are Java `int`s. The model uses unbounded naturals, because overflow would need more than 2^31 entries or siblings.
- Extraction.ReadFully: the read lengths are given as a non-empty list of positive counts, reused from the start if the list runs out. Every finite run of reads can be listed in full, so this covers any stream. A read that returns 0 would end the Java loop early, but `InputStream.read` into a 4096-byte array returns 0 only for a zero-length array, so the model does not include it.

=== FILE: decimal.dfy ===
/** Decimal rendering of a natural number, as Java's string concatenation
    `"" + i` renders a non-negative int, and its inverse. */
module Decimal {

  predicate IsDigit(c: char) {
    '0' <= c <= '9'
  }

  predicate IsNumeral(s: string) {
    forall i :: 0 <= i < |s| ==> IsDigit(s[i])
  }

  function DigitChar(d: nat): (c: char)
    requires d < 10
    ensures IsDigit(c)
  {
    ('0' as int + d) as char
  }

  function DigitValue(c: char): (d: nat)
    requires IsDigit(c)
    ensures d < 10
  {
    c as int - '0' as int
  }

  /** The shortest decimal numeral of `n`: non-empty, only digits, no leading zero. */
  function FromNat(n: nat): (s: string)
    ensures |s| > 0 && IsNumeral(s)
    ensures |s| > 1 ==> s[0] != '0'
  {
    if n < 10 then [DigitChar(n)]
    else FromNat(n / 10) + [DigitChar(n % 10)]
  }

  /** The value of a numeral, most significant digit first. */
  function ToNat(s: string): nat
    requires IsNumeral(s)
  {
    if |s| == 0 then 0
    else ToNat(s[..|s| - 1]) * 10 + DigitValue(s[|s| - 1])
  }

  /** Reading back a rendered number gives the number. */
  lemma {:induction false} ToNatFromNat(n: nat)
    ensures ToNat(FromNat(n)) == n
  {
    if n >= 10 {
      var s := FromNat(n);
      assert s[..|s| - 1] == FromNat(n / 10);
      ToNatFromNat(n / 10);
    }
  }

  /** Distinct numbers render as distinct numerals. */
  lemma FromNatInjective(m: nat, n: nat)
    requires FromNat(m) == FromNat(n)
    ensures m == n
  {
    ToNatFromNat(m);
    ToNatFromNat(n);
  }
}

=== FILE: destination.dfy ===
/** Choosing the folder an archive is extracted into (MCUnzip.extract, before
    the archive is opened): the archive's file name cut at its first '.', then
    "base", "base (2)", "base (3)", ... until a name no sibling already uses.

    The parent directory's existing entries are given as the set of their
    names. The empty name denotes the parent directory itself (`new File(parent, "")`),
    which always exists, so it is always taken. */
module Destination {
  import Strings
  import Decimal

  /** The folder name before any collision suffix: `fileName` up to its first
      '.', or all of it when there is none. */
  function BaseName(fileName: string): (r: string)
    ensures r <= fileName
    ensures '.' !in r
    ensures r == fileName || fileName[|r|] == '.'
  {
    if '.' in fileName then fileName[..Strings.IndexOf(fileName, '.')] else fileName
  }

  /** The three facts above pin the base name down: the longest dot-free prefix. */
  lemma BaseNameUnique(fileName: string, b: string)
    requires b <= fileName && '.' !in b
    requires b == fileName || fileName[|b|] == '.'
    ensures b == BaseName(fileName)
  {
  }

  /** The k-th name tried: the base itself first, then "base (k)" from k = 2. */
  function Candidate(base: string, k: nat): (r: string)
    requires k >= 1
    ensures base <= r
    ensures r == base <==> k == 1
  {
    if k == 1 then base else base + " (" + Decimal.FromNat(k) + ")"
  }

  /** No name is tried twice. */
  lemma CandidateInjective(base: string, j: nat, k: nat)
    requires 1 <= j && 1 <= k
    requires Candidate(base, j) == Candidate(base, k)
    ensures j == k
  {
    if j != 1 && k != 1 {
      var s := Candidate(base, j);
      var n := |base| + 2;
      assert s[n..|s| - 1] == Decimal.FromNat(j);
      assert Candidate(base, k)[n..|s| - 1] == Decimal.FromNat(k);
      Decimal.FromNatInjective(j, k);
    }
  }

  /** The names tried before the k-th. */
  function Below(base: string, k: nat): set<string>
    requires k >= 1
  {
    set j | 1 <= j < k :: Candidate(base, j)
  }

  lemma BelowStep(base: string, k: nat)
    requires k >= 1
    ensures Below(base, k + 1) == Below(base, k) + {Candidate(base, k)}
    ensures Candidate(base, k) !in Below(base, k)
  {
    if Candidate(base, k) in Below(base, k) {
      var j :| 1 <= j < k && Candidate(base, j) == Candidate(base, k);
      CandidateInjective(base, j, k);
    }
  }

  /** k - 1 distinct names are tried before the k-th. */
  lemma {:induction false} BelowSize(base: string, k: nat)
    requires k >= 1
    ensures |Below(base, k)| == k - 1
  {
    if k == 1 {
      assert Below(base, 1) == {};
    } else {
      BelowSize(base, k - 1);
      BelowStep(base, k - 1);
    }
  }

  /** The probing loop from the k-th candidate on: the index of the first
      candidate not in `taken`. It stops because every taken candidate it
      passes is a distinct member of the finite set `taken`. */
  function Probe(base: string, taken: set<string>, k: nat): (r: nat)
    requires k >= 1
    ensures r >= k
    ensures Candidate(base, r) !in taken
    ensures forall j :: k <= j < r ==> Candidate(base, j) in taken
    decreases Unpassed(base, taken, k)
  {
    if Candidate(base, k) !in taken then k
    else
      ProbeStep(base, taken, k);
      Probe(base, taken, k + 1)
  }

  /** How many taken names the probe has not passed yet. */
  function Unpassed(base: string, taken: set<string>, k: nat): nat
    requires k >= 1
  {
    |taken - Below(base, k)|
  }

  /** Passing a taken candidate shrinks the set of taken names not yet passed. */
  lemma ProbeStep(base: string, taken: set<string>, k: nat)
    requires k >= 1 && Candidate(base, k) in taken
    ensures Unpassed(base, taken, k + 1) < Unpassed(base, taken, k)
  {
    BelowStep(base, k);
    var rest := taken - Below(base, k);
    assert taken - Below(base, k + 1) == rest - {Candidate(base, k)};
  }

  /** Pigeonhole: probing from the first candidate checks at most |taken| + 1 names. */
  lemma ProbeBound(base: string, taken: set<string>)
    ensures Probe(base, taken, 1) <= |taken| + 1
  {
    var r := Probe(base, taken, 1);
    BelowSize(base, r);
    assert Below(base, r) <= taken;
    SubsetSize(Below(base, r), taken);
  }

  lemma SubsetSize<T>(a: set<T>, b: set<T>)
    requires a <= b
    ensures |a| <= |b|
  {
    assert b == a + (b - a);
  }

  /** Everything the resolver treats as existing in the parent directory. */
  function Taken(existing: set<string>): set<string> {
    existing + {""}
  }

  /** The index of the chosen candidate for archive file `fileName` among
      sibling names `existing`: the first one that is free, never "(1)", and
      at most |existing| + 2. */
  function DestinationIndex(fileName: string, existing: set<string>): (k: nat)
    ensures k >= 1
    ensures Candidate(BaseName(fileName), k) !in Taken(existing)
    ensures forall j :: 1 <= j < k ==> Candidate(BaseName(fileName), j) in Taken(existing)
    ensures k <= |existing| + 2
  {
    ProbeBound(BaseName(fileName), Taken(existing));
    Probe(BaseName(fileName), Taken(existing), 1)
  }

  /** The destination folder name for archive file `fileName` among sibling
      names `existing`. */
  function DestinationName(fileName: string, existing: set<string>): (r: string)
    ensures r !in existing && r != ""
    ensures BaseName(fileName) <= r && '.' !in r
    ensures r == BaseName(fileName) <==> BaseName(fileName) !in Taken(existing)
    ensures r != BaseName(fileName) ==>
              exists k :: 2 <= k <= |existing| + 2 && r == BaseName(fileName) + " (" + Decimal.FromNat(k) + ")"
  {
    var base := BaseName(fileName);
    var k := DestinationIndex(fileName, existing);
    var r := Candidate(base, k);
    if k == 1 then r
    else
      assert forall i :: 0 <= i < |r| ==> r[i] != '.' by {
        var d := Decimal.FromNat(k);
        assert r == base + " (" + d + ")";
        forall i | 0 <= i < |r| ensures r[i] != '.' {
          if i < |base| {
            assert r[i] == base[i];
          } else if |base| + 2 <= i < |base| + 2 + |d| {
            assert r[i] == d[i - |base| - 2];
          }
        }
      }
      r
  }

  /** The first-dot cases: with no collision the name is cut at its first '.'. */
  lemma ExampleFree()
    ensures DestinationName("Pack.zip", {}) == "Pack"
  {
    assert BaseName("Pack.zip") == "Pack" by {
      BaseNameUnique("Pack.zip", "Pack");
    }
  }

  lemma ExampleFirstDot()
    ensures DestinationName("my.pack.v2.zip", {}) == "my"
  {
    BaseNameUnique("my.pack.v2.zip", "my");
  }

  /** Collisions: next to an existing `Pack`, `Pack.zip` goes to `Pack (2)`;
      if that exists too, to `Pack (3)`. */
  lemma SecondCandidateChosen(fileName: string, existing: set<string>)
    requires BaseName(fileName) in existing
    requires BaseName(fileName) + " (2)" !in existing
    ensures DestinationName(fileName, existing) == BaseName(fileName) + " (2)"
  {
    assert Candidate(BaseName(fileName), 2) == BaseName(fileName) + " (2)" by {
      assert Decimal.FromNat(2) == "2";
    }
  }

  lemma ThirdCandidateChosen(fileName: string, existing: set<string>)
    requires BaseName(fileName) in existing
    requires BaseName(fileName) + " (2)" in existing
    requires BaseName(fileName) + " (3)" !in existing
    ensures DestinationName(fileName, existing) == BaseName(fileName) + " (3)"
  {
    assert Candidate(BaseName(fileName), 2) == BaseName(fileName) + " (2)" by {
      assert Decimal.FromNat(2) == "2";
    }
    assert Candidate(BaseName(fileName), 3) == BaseName(fileName) + " (3)" by {
      assert Decimal.FromNat(3) == "3";
    }
  }

  /** A hidden-file name has an empty base, which names the parent itself, so
      the first free candidate is " (2)". */
  lemma ExampleHiddenFile()
    ensures DestinationName(".zip", {}) == " (2)"
  {
    BaseNameUnique(".zip", "");
    assert Candidate("", 2) == " (2)" by {
      assert Decimal.FromNat(2) == "2";
    }
  }
}

=== FILE: extraction.dfy ===
/** MCUnzip.extract: choose the destination folder, count the entries, then
    for every entry in archive order call the progress listener and
    materialise the entry under the destination folder.

    The archive is given as its already-decoded list of entries; the
    listener's calls are returned as a trace. */
module Extraction {
  import opened Paths
  import opened FileSystems
  import Destination

  /** A zip entry: its stored name, whether it is a directory, and its bytes. */
  datatype Entry = Entry(name: string, isDirectory: bool, data: Bytes)

  /** One listener call: the 1-based count and the total (the fraction the
      listener receives is count / total), the entry, and the filesystem as it
      stands while the listener runs. */
  datatype Progress = Progress(count: nat, total: nat, entry: Entry, before: FileSystem)

  /** The progress fraction of `p` is below that of `q`, compared exactly. */
  predicate FractionBelow(p: Progress, q: Progress) {
    p.count * q.total < q.count * p.total
  }

  /** The destination folder for the archive at path `archive`: a fresh
      sibling of the archive. */
  function DestinationRoot(fs: FileSystem, archive: Path): (root: Path)
    requires |archive| > 0
    ensures |root| > 0 && Parent(root) == Parent(archive)
    ensures !Exists(fs, root)
    ensures root[|root| - 1] == Destination.DestinationName(archive[|archive| - 1], Children(fs, Parent(archive)))
  {
    Parent(archive) + [Destination.DestinationName(archive[|archive| - 1], Children(fs, Parent(archive)))]
  }

  /** The destination folder of an archive whose path has no `.` or `..`
      component has none either: its name is neither empty nor contains a dot. */
  lemma DestinationRootNormal(fs: FileSystem, archive: Path)
    requires |archive| > 0 && IsNormal(archive)
    ensures IsNormal(DestinationRoot(fs, archive))
  {
    var root := DestinationRoot(fs, archive);
    var name := root[|root| - 1];
    assert name != "." && name != ".." by {
      assert '.' !in name;
      assert "."[0] == '.' && ".."[0] == '.';
    }
    forall i | 0 <= i < |root| ensures root[i] != "." && root[i] != ".." {
      if i < |root| - 1 {
        assert root[i] == archive[i];
      }
    }
  }

  /** `new File(root, name).getParentFile()`: the folder both kinds of entry create. */
  function EntryFolder(root: Path, name: string): (r: Path)
    requires |root| > 0
    ensures |Components(name)| > 0 ==> root <= r
    ensures |Components(name)| == 0 ==> r == Parent(root)
  {
    Parent(Resolve(root, name))
  }

  /** `new File(folder, getEntryName(name))`: where a file entry is written. */
  function FileTarget(root: Path, name: string): (r: Path)
    requires |root| > 0
    ensures root <= r || r == Parent(root)
  {
    EntryNameWithoutComponents(name);
    Resolve(EntryFolder(root, name), EntryName(name))
  }

  /** A directory entry: only the folder above the entry's own path is made,
      with its ancestors; files do not change. */
  function MaterializeDirectory(fs: FileSystem, root: Path, name: string): (r: FileSystem)
    requires |root| > 0
    ensures r.files == fs.files
    ensures fs.dirs <= r.dirs
    ensures forall i :: 0 < i <= |EntryFolder(root, name)| ==> EntryFolder(root, name)[..i] in r.dirs
    ensures forall d :: d in r.dirs && d !in fs.dirs ==> 0 < |d| && d <= EntryFolder(root, name)
  {
    Mkdirs(fs, EntryFolder(root, name))
  }

  /** A file entry: the folder chain is made, a file already at the target is
      deleted, and the buffered bytes are written there. No other file changes. */
  function MaterializeFile(fs: FileSystem, root: Path, name: string, data: Bytes): (r: FileSystem)
    requires |root| > 0
    ensures var t := FileTarget(root, name); t in r.files && r.files[t] == data
    ensures var t := FileTarget(root, name); forall i :: 0 < i < |t| ==> t[..i] in r.dirs
    ensures forall q :: q != FileTarget(root, name) ==> (q in r.files <==> q in fs.files)
    ensures forall q :: q != FileTarget(root, name) && q in fs.files ==> r.files[q] == fs.files[q]
    ensures fs.dirs <= r.dirs
    ensures forall d :: d in r.dirs && d !in fs.dirs ==> 0 < |d| && d <= EntryFolder(root, name)
  {
    var folder := EntryFolder(root, name);
    var made := Mkdirs(fs, folder);
    var file := Resolve(folder, EntryName(name));
    var cleared := if Exists(made, file) then Delete(made, file) else made;
    Create(cleared, file, data)
  }

  /** One entry of the loop: a directory entry changes no file; a file entry
      leaves exactly its bytes at its target. */
  function Materialize(fs: FileSystem, root: Path, e: Entry): (r: FileSystem)
    requires |root| > 0
    ensures fs.dirs <= r.dirs
    ensures e.isDirectory ==> r.files == fs.files
    ensures !e.isDirectory ==> FileTarget(root, e.name) in r.files && r.files[FileTarget(root, e.name)] == e.data
  {
    if e.isDirectory then MaterializeDirectory(fs, root, e.name)
    else MaterializeFile(fs, root, e.name, e.data)
  }

  /** The filesystem after materialising `es` in order, starting from `fs`. */
  function MaterializeAll(fs: FileSystem, root: Path, es: seq<Entry>): (r: FileSystem)
    requires |root| > 0
    ensures fs.dirs <= r.dirs
    ensures fs.files.Keys <= r.files.Keys
  {
    if |es| == 0 then fs
    else Materialize(MaterializeAll(fs, root, es[..|es| - 1]), root, es[|es| - 1])
  }

  /** Entry `e` is a file entry written at path `p`. */
  predicate WritesTo(root: Path, e: Entry, p: Path)
    requires |root| > 0
  {
    !e.isDirectory && FileTarget(root, e.name) == p
  }

  /** MCUnzip.size: the number of elements the enumeration yields. */
  method Size<T>(enumeration: seq<T>) returns (n: nat)
    ensures n == |enumeration|
  {
    n := 0;
    var rest := enumeration;
    while rest != []
      invariant n + |rest| == |enumeration|
    {
      rest := rest[1..];
      n := n + 1;
    }
  }

  /** The read size of one chunk of an entry's stream. */
  const ChunkSize: nat := 4096

  /** Reading an entry's stream into a buffer, one `in.read(byteChunk)` call
      at a time. `pace` gives how many bytes successive calls deliver, taken
      in turn and reused from the start when they run out; no call delivers
      more than a chunk or more than is left. Whatever that pace, the buffer
      ends up holding exactly the entry's bytes. */
  method ReadFully(stream: Bytes, pace: seq<nat>) returns (buffer: Bytes)
    requires |pace| > 0 && forall i :: 0 <= i < |pace| ==> pace[i] > 0
    ensures buffer == stream
  {
    buffer := [];
    var pos, call := 0, 0;
    while pos < |stream|
      invariant pos <= |stream|
      invariant buffer == stream[..pos]
      decreases |stream| - pos
    {
      var offered := pace[call % |pace|];
      var n := if offered < ChunkSize then offered else ChunkSize;
      n := if n < |stream| - pos then n else |stream| - pos;
      buffer := buffer + stream[pos..pos + n];
      pos := pos + n;
      call := call + 1;
    }
  }

  /** The body of the extraction loop after the listener call: a directory
      entry makes its folder; a file entry is read into a buffer first and the
      buffer is written. */
  method MaterializeEntry(fs: FileSystem, root: Path, entry: Entry, pace: seq<nat>) returns (r: FileSystem)
    requires |root| > 0
    requires |pace| > 0 && forall i :: 0 <= i < |pace| ==> pace[i] > 0
    ensures r == Materialize(fs, root, entry)
  {
    if entry.isDirectory {
      r := MaterializeDirectory(fs, root, entry.name);
    } else {
      var buffered := ReadFully(entry.data, pace);
      r := MaterializeFile(fs, root, entry.name, buffered);
    }
  }

  /** MCUnzip.extract on the archive at path `archive` holding `entries`,
      whose streams deliver bytes as `pace` says: the destination folder, the
      resulting filesystem, and the listener's calls in order. */
  method Extract(fs: FileSystem, archive: Path, entries: seq<Entry>, pace: seq<nat>)
    returns (root: Path, out: FileSystem, trace: seq<Progress>)
    requires |archive| > 0
    requires |pace| > 0 && forall i :: 0 <= i < |pace| ==> pace[i] > 0
    ensures root == DestinationRoot(fs, archive)
    ensures out == MaterializeAll(fs, root, entries)
    ensures |trace| == |entries|
    ensures forall i :: 0 <= i < |trace| ==>
              trace[i] == Progress(i + 1, |entries|, entries[i], MaterializeAll(fs, root, entries[..i]))
    ensures forall i :: 0 <= i < |trace| ==> 0 < trace[i].count <= trace[i].total
    ensures forall i, j :: 0 <= i < j < |trace| ==> FractionBelow(trace[i], trace[j])
    ensures |trace| > 0 ==> trace[|trace| - 1].count == trace[|trace| - 1].total
  {
    root := DestinationRoot(fs, archive);
    var totalEntries := Size(entries);
    var count := 0;
    out := fs;
    trace := [];
    while count < |entries|
      invariant count <= |entries|
      invariant out == MaterializeAll(fs, root, entries[..count])
      invariant trace == ProgressTrace(fs, root, entries[..count], totalEntries)
    {
      var entry := entries[count];
      trace := trace + [Progress(count + 1, totalEntries, entry, out)];
      out := MaterializeEntry(out, root, entry, pace);
      MaterializePrefixStep(fs, root, entries, count);
      ProgressPrefixStep(fs, root, entries, count, totalEntries);
      count := count + 1;
    }
    assert entries[..count] == entries;
    ProgressTraceAt(fs, root, entries, totalEntries);
    ProgressFractions(trace, |entries|);
  }

  /** The listener calls for entries `es` with total `n`: the k-th call
      carries k / n and sees the filesystem left by the entries before it. */
  function ProgressTrace(fs: FileSystem, root: Path, es: seq<Entry>, n: nat): (r: seq<Progress>)
    requires |root| > 0
    ensures |r| == |es|
    ensures forall i :: 0 <= i < |r| ==> r[i].count == i + 1 && r[i].total == n
  {
    if |es| == 0 then []
    else
      var front := es[..|es| - 1];
      var last := Progress(|es|, n, es[|es| - 1], MaterializeAll(fs, root, front));
      var t := ProgressTrace(fs, root, front, n);
      assert forall i :: 0 <= i < |t| ==> (t + [last])[i] == t[i];
      t + [last]
  }

  /** The i-th listener call carries count i + 1 of n, the i-th entry, and the
      filesystem after the first i entries. */
  lemma {:induction false} ProgressTraceAt(fs: FileSystem, root: Path, es: seq<Entry>, n: nat)
    requires |root| > 0
    ensures |ProgressTrace(fs, root, es, n)| == |es|
    ensures forall i :: 0 <= i < |es| ==>
              ProgressTrace(fs, root, es, n)[i] == Progress(i + 1, n, es[i], MaterializeAll(fs, root, es[..i]))
  {
    if |es| > 0 {
      var front := es[..|es| - 1];
      var t, tf := ProgressTrace(fs, root, es, n), ProgressTrace(fs, root, front, n);
      ProgressTraceAt(fs, root, front, n);
      assert t == tf + [Progress(|es|, n, es[|es| - 1], MaterializeAll(fs, root, front))];
      forall i | 0 <= i < |es| - 1
        ensures t[i] == Progress(i + 1, n, es[i], MaterializeAll(fs, root, es[..i]))
      {
        assert t[i] == tf[i];
        assert front[..i] == es[..i];
      }
    }
  }

  /** Listening to one more entry of a prefix appends one call to the trace. */
  lemma ProgressPrefixStep(fs: FileSystem, root: Path, es: seq<Entry>, k: nat, n: nat)
    requires |root| > 0 && k < |es|
    ensures ProgressTrace(fs, root, es[..k + 1], n)
            == ProgressTrace(fs, root, es[..k], n) + [Progress(k + 1, n, es[k], MaterializeAll(fs, root, es[..k]))]
  {
    assert es[..k + 1][..k] == es[..k];
  }

  /** Materialising one more entry of a prefix extends the fold by one step. */
  lemma MaterializePrefixStep(fs: FileSystem, root: Path, es: seq<Entry>, k: nat)
    requires |root| > 0 && k < |es|
    ensures MaterializeAll(fs, root, es[..k + 1]) == Materialize(MaterializeAll(fs, root, es[..k]), root, es[k])
  {
    assert es[..k + 1][..k] == es[..k];
  }

  /** A trace whose i-th call carries (i + 1) / n has fractions in (0, 1],
      strictly increasing, ending at 1. */
  lemma ProgressFractions(trace: seq<Progress>, n: nat)
    requires |trace| == n
    requires forall i :: 0 <= i < |trace| ==> trace[i].count == i + 1 && trace[i].total == n
    ensures forall i :: 0 <= i < |trace| ==> 0 < trace[i].count <= trace[i].total
    ensures forall i, j :: 0 <= i < j < |trace| ==> FractionBelow(trace[i], trace[j])
    ensures |trace| > 0 ==> trace[|trace| - 1].count == trace[|trace| - 1].total
  {
  }

  // Where entries land.

  /** A file entry with a '/'-separated name (no '\' unless it also has a '/')
      that does not end in '/' is written at root/name. */
  lemma SlashNameTarget(root: Path, name: string)
    requires |root| > 0
    requires name != "" && name[|name| - 1] != '/'
    requires '/' in name || '\\' !in name
    ensures FileTarget(root, name) == Resolve(root, name)
  {
    LastComponentIsEntryName(name);
    var cs := Components(name);
    ComponentsOfPlainName(EntryName(name));
    assert Resolve(root, name) == EntryFolder(root, name) + [cs[|cs| - 1]];
  }

  /** A plain name is written at root/name. */
  lemma PlainNameTarget(root: Path, name: string)
    requires |root| > 0 && IsPlainName(name)
    ensures FileTarget(root, name) == Resolve(root, name)
  {
    JoinEnd(Components(name));
    SlashNameTarget(root, name);
  }

  /** On a '/'-separator host, a name that only uses '\' is one component, but
      getEntryName keeps just its last '\'-segment: the file lands directly
      under the destination folder, not at root/name. */
  lemma BackslashNameFlattened(root: Path, name: string)
    requires |root| > 0
    requires '/' !in name && '\\' in name && name[|name| - 1] != '\\'
    ensures FileTarget(root, name) == root + [EntryName(name)]
    ensures FileTarget(root, name) != Resolve(root, name)
  {
    ComponentsOfPlainName(name);
    ComponentsOfPlainName(EntryName(name));
    assert EntryName(name) != name;
  }

  /** A file entry whose leaf name is not empty lands strictly inside the
      destination folder. */
  lemma FileTargetInsideRoot(root: Path, name: string)
    requires |root| > 0 && EntryName(name) != ""
    ensures root <= FileTarget(root, name) && |FileTarget(root, name)| > |root|
  {
    EntryNameHasComponent(name);
    ComponentsOfPlainName(EntryName(name));
  }

  /** Distinct plain names are written at distinct paths. */
  lemma PlainNamesDistinctTargets(root: Path, a: string, b: string)
    requires |root| > 0 && IsPlainName(a) && IsPlainName(b) && a != b
    ensures FileTarget(root, a) != FileTarget(root, b)
  {
    PlainNameTarget(root, a);
    PlainNameTarget(root, b);
    assert Resolve(root, a)[|root|..] == Components(a);
    assert Resolve(root, b)[|root|..] == Components(b);
  }

  // Where entries land once the host resolves `.` and `..`.

  /** The file a file entry's bytes reach on the host. */
  function HostTarget(root: Path, name: string): (r: Path)
    requires |root| > 0
    ensures IsNormal(r)
    ensures IsNormal(FileTarget(root, name)) ==> r == FileTarget(root, name)
  {
    NormalizeNormal(FileTarget(root, name));
    Normalize(FileTarget(root, name))
  }

  /** A file entry's pathname is the destination folder followed by the
      entry's folders and its leaf name. */
  lemma FileTargetShape(root: Path, name: string)
    requires |root| > 0 && EntryName(name) != ""
    ensures var cs := Components(name);
            |cs| > 0 && FileTarget(root, name) == root + (cs[..|cs| - 1] + [EntryName(name)])
  {
    EntryNameHasComponent(name);
    EntryFolderShape(root, name);
    FileTargetLeaf(root, name);
  }

  lemma EntryFolderShape(root: Path, name: string)
    requires |root| > 0 && |Components(name)| > 0
    ensures EntryFolder(root, name) == root + Components(name)[..|Components(name)| - 1]
  {
  }

  lemma FileTargetLeaf(root: Path, name: string)
    requires |root| > 0 && EntryName(name) != ""
    ensures FileTarget(root, name) == EntryFolder(root, name) + [EntryName(name)]
  {
    ComponentsOfPlainName(EntryName(name));
  }

  /** On the host, a file entry without `..` components and with an ordinary
      leaf name lands strictly inside the destination folder. */
  lemma HostTargetInsideRoot(root: Path, name: string)
    requires |root| > 0 && IsNormal(root)
    requires forall i :: 0 <= i < |Components(name)| ==> Components(name)[i] != ".."
    requires EntryName(name) != "" && EntryName(name) != "." && EntryName(name) != ".."
    ensures root <= HostTarget(root, name) && |HostTarget(root, name)| > |root|
  {
    FileTargetShape(root, name);
    var cs := Components(name);
    var rest := cs[..|cs| - 1] + [EntryName(name)];
    assert forall i :: 0 <= i < |rest| ==> rest[i] != ".." by {
      forall i | 0 <= i < |rest| ensures rest[i] != ".." {
        if i < |cs| - 1 {
          assert rest[i] == cs[i];
        }
      }
    }
    WalkConcat([], root, rest);
    NormalizeNormal(root);
    WalkStaysBelow(root, rest);
  }

  /** The escape the loop does not guard against: once the destination
      folder exists, an entry named `../leaf` is written next to it, not
      inside it. */
  lemma ParentEntryEscapes(root: Path, leaf: string)
    requires |root| > 0 && IsNormal(root)
    requires IsComponent(leaf) && leaf != "." && leaf != ".."
    ensures HostTarget(root, "../" + leaf) == Parent(root) + [leaf]
    ensures !(root <= HostTarget(root, "../" + leaf) && |HostTarget(root, "../" + leaf)| > |root|)
  {
    var name := "../" + leaf;
    var target := HostTarget(root, name);
    assert FileTarget(root, name) == root + ["..", leaf] by {
      DotDotNameComponents(leaf);
      DotDotNameEntryName(leaf);
      FileTargetShape(root, name);
      assert ["..", leaf][..1] + [leaf] == ["..", leaf];
    }
    assert target == Parent(root) + [leaf] by {
      WalkConcat([], root, ["..", leaf]);
      NormalizeNormal(root);
      WalkUpThenDown(root, leaf);
    }
  }

  /** For a plain name the host opens exactly the pathname root/name. */
  lemma PlainNameHostTarget(root: Path, name: string)
    requires |root| > 0 && IsNormal(root) && IsPlainName(name)
    ensures HostTarget(root, name) == FileTarget(root, name) == Resolve(root, name)
  {
    PlainNameTarget(root, name);
    var p := Resolve(root, name);
    assert IsNormal(p) by {
      forall i | 0 <= i < |p| ensures p[i] != "." && p[i] != ".." {
        if i >= |root| {
          assert p[i] == Components(name)[i - |root|];
        }
      }
    }
    NormalizeNormal(p);
  }

  /** A directory entry whose own path is not a directory yet does not become
      one: only the folder above it is made. */
  lemma DirectoryLeafNotCreated(fs: FileSystem, root: Path, e: Entry)
    requires |root| > 0 && e.isDirectory
    requires |Components(e.name)| > 0 && Resolve(root, e.name) !in fs.dirs
    ensures Resolve(root, e.name) !in Materialize(fs, root, e).dirs
    ensures Materialize(fs, root, e).files == fs.files
  {
  }

  // The whole fold.

  /** Directories and files are never removed; every file entry's target exists afterwards. */
  lemma {:induction false} MaterializeAllGrows(fs: FileSystem, root: Path, es: seq<Entry>)
    requires |root| > 0
    ensures fs.dirs <= MaterializeAll(fs, root, es).dirs
    ensures fs.files.Keys <= MaterializeAll(fs, root, es).files.Keys
    ensures forall k :: 0 <= k < |es| && !es[k].isDirectory ==>
              FileTarget(root, es[k].name) in MaterializeAll(fs, root, es).files
  {
    if |es| > 0 {
      var front := es[..|es| - 1];
      MaterializeAllGrows(fs, root, front);
      forall k | 0 <= k < |es| - 1 && !es[k].isDirectory
        ensures FileTarget(root, es[k].name) in MaterializeAll(fs, root, es).files
      {
        assert front[k] == es[k];
      }
    }
  }

  /** A path no file entry writes to keeps exactly what it had before. */
  lemma {:induction false} FilesUntouched(fs: FileSystem, root: Path, es: seq<Entry>, p: Path)
    requires |root| > 0
    requires forall k :: 0 <= k < |es| ==> !WritesTo(root, es[k], p)
    ensures p in MaterializeAll(fs, root, es).files <==> p in fs.files
    ensures p in fs.files ==> MaterializeAll(fs, root, es).files[p] == fs.files[p]
  {
    if |es| > 0 {
      var front := es[..|es| - 1];
      assert forall k :: 0 <= k < |front| ==> front[k] == es[k];
      FilesUntouched(fs, root, front, p);
      assert !WritesTo(root, es[|es| - 1], p);
    }
  }

  /** Last write wins: a file entry that no later file entry overwrites leaves
      its target holding exactly its bytes. */
  lemma {:induction false} LastWriteWins(fs: FileSystem, root: Path, es: seq<Entry>, k: nat)
    requires |root| > 0 && k < |es| && !es[k].isDirectory
    requires forall j :: k < j < |es| ==> !WritesTo(root, es[j], FileTarget(root, es[k].name))
    ensures FileTarget(root, es[k].name) in MaterializeAll(fs, root, es).files
    ensures MaterializeAll(fs, root, es).files[FileTarget(root, es[k].name)] == es[k].data
  {
    var front := es[..|es| - 1];
    if k < |es| - 1 {
      assert front[k] == es[k];
      assert forall j :: k < j < |front| ==> front[j] == es[j];
      LastWriteWins(fs, root, front, k);
      assert !WritesTo(root, es[|es| - 1], FileTarget(root, es[k].name));
    }
  }

  /** The round trip: when the file entries have distinct plain names, every
      file entry's bytes end up, unchanged, at root/name. */
  lemma ExtractedFilesMatchEntries(fs: FileSystem, root: Path, es: seq<Entry>, k: nat)
    requires |root| > 0 && k < |es| && !es[k].isDirectory
    requires forall j :: 0 <= j < |es| && !es[j].isDirectory ==> IsPlainName(es[j].name)
    requires forall i, j :: 0 <= i < j < |es| && !es[i].isDirectory && !es[j].isDirectory ==> es[i].name != es[j].name
    ensures Resolve(root, es[k].name) in MaterializeAll(fs, root, es).files
    ensures MaterializeAll(fs, root, es).files[Resolve(root, es[k].name)] == es[k].data
  {
    PlainNameTarget(root, es[k].name);
    forall j | k < j < |es|
      ensures !WritesTo(root, es[j], FileTarget(root, es[k].name))
    {
      if !es[j].isDirectory {
        PlainNamesDistinctTargets(root, es[j].name, es[k].name);
      }
    }
    LastWriteWins(fs, root, es, k);
  }

  /** One entry keeps every directory's and file's ancestors in place. */
  lemma MaterializePreservesWellFormed(fs: FileSystem, root: Path, e: Entry)
    requires |root| > 0 && WellFormed(fs)
    ensures WellFormed(Materialize(fs, root, e))
  {
    var folder := EntryFolder(root, e.name);
    MkdirsPreservesWellFormed(fs, folder);
    if !e.isDirectory {
      var made := Mkdirs(fs, folder);
      var r := Materialize(fs, root, e);
      var t := FileTarget(root, e.name);
      assert r.dirs == made.dirs;
      forall f, i | f in r.files && 0 < i < |f|
        ensures f[..i] in r.dirs
      {
        if f != t {
          assert f in made.files;
        }
      }
    }
  }

  /** Extraction keeps a well-formed filesystem well-formed. */
  lemma {:induction false} MaterializeAllPreservesWellFormed(fs: FileSystem, root: Path, es: seq<Entry>)
    requires |root| > 0 && WellFormed(fs)
    ensures WellFormed(MaterializeAll(fs, root, es))
  {
    if |es| > 0 {
      MaterializeAllPreservesWellFormed(fs, root, es[..|es| - 1]);
      MaterializePreservesWellFormed(MaterializeAll(fs, root, es[..|es| - 1]), root, es[|es| - 1]);
    }
  }

  /** Some entry's name has at least one component. */
  predicate HasNamedEntry(es: seq<Entry>) {
    exists k :: 0 <= k < |es| && |Components(es[k].name)| > 0
  }

  lemma HasNamedEntrySplit(es: seq<Entry>)
    requires |es| > 0
    ensures HasNamedEntry(es) <==> HasNamedEntry(es[..|es| - 1]) || |Components(es[|es| - 1].name)| > 0
  {
    var front := es[..|es| - 1];
    if HasNamedEntry(front) {
      var k :| 0 <= k < |front| && |Components(front[k].name)| > 0;
      assert es[k] == front[k];
    }
    if HasNamedEntry(es) {
      var k :| 0 <= k < |es| && |Components(es[k].name)| > 0;
      if k < |front| {
        assert front[k] == es[k];
      }
    }
  }

  /** A file entry adds the entry folder's ancestor chain to the directories, nothing else. */
  lemma MaterializeFileDirs(fs: FileSystem, root: Path, name: string, data: Bytes)
    requires |root| > 0
    ensures MaterializeFile(fs, root, name, data).dirs == fs.dirs + Ancestors(EntryFolder(root, name))
  {
  }

  /** One entry makes the destination folder exist exactly when its name has a component. */
  lemma RootCreatedStep(fs: FileSystem, root: Path, e: Entry)
    requires |root| > 0
    ensures root in Materialize(fs, root, e).dirs <==> root in fs.dirs || |Components(e.name)| > 0
  {
    var folder := EntryFolder(root, e.name);
    assert Materialize(fs, root, e).dirs == fs.dirs + Ancestors(folder) by {
      if !e.isDirectory {
        MaterializeFileDirs(fs, root, e.name, e.data);
      }
    }
    if |Components(e.name)| > 0 {
      assert folder[..|root|] == root;
    } else {
      assert |folder| < |root|;
    }
  }

  /** The destination folder comes into existence exactly when some entry's
      name has a component; an empty archive creates nothing. */
  lemma {:induction false} RootCreatedIff(fs: FileSystem, root: Path, es: seq<Entry>)
    requires |root| > 0 && root !in fs.dirs
    ensures root in MaterializeAll(fs, root, es).dirs <==> HasNamedEntry(es)
  {
    if |es| > 0 {
      var front := es[..|es| - 1];
      RootCreatedIff(fs, root, front);
      RootCreatedStep(MaterializeAll(fs, root, front), root, es[|es| - 1]);
      HasNamedEntrySplit(es);
    }
  }

  // Extracting the same archive twice.

  /** Once an extraction has created its folder, extracting the same archive
      again next to it picks a different folder. */
  lemma SecondExtractionNewFolder(fs: FileSystem, archive: Path, es: seq<Entry>)
    requires |archive| > 0
    requires HasNamedEntry(es)
    ensures var root := DestinationRoot(fs, archive);
            DestinationRoot(MaterializeAll(fs, root, es), archive) != root
  {
    var root := DestinationRoot(fs, archive);
    RootCreatedIff(fs, root, es);
  }

  /** A file entry extracted into one folder is never written under a
      different folder of the same depth. */
  lemma TargetOutsideSibling(root: Path, root': Path, name: string)
    requires |root| > 0 && |root'| == |root| && root' != root
    ensures !(root <= FileTarget(root', name))
  {
    var t := FileTarget(root', name);
    if root' <= t {
      assert t[..|root|] == root';
    }
  }

  /** The second extraction leaves every file under the first extraction's
      folder as it was. */
  lemma SecondExtractionLeavesFirstAlone(fs: FileSystem, archive: Path, es: seq<Entry>, es': seq<Entry>, p: Path)
    requires |archive| > 0
    requires HasNamedEntry(es)
    requires DestinationRoot(fs, archive) <= p
    ensures var first := MaterializeAll(fs, DestinationRoot(fs, archive), es);
            var second := MaterializeAll(first, DestinationRoot(first, archive), es');
            (p in second.files <==> p in first.files) &&
            (p in first.files ==> second.files[p] == first.files[p])
  {
    var root := DestinationRoot(fs, archive);
    var first := MaterializeAll(fs, root, es);
    var root' := DestinationRoot(first, archive);
    SecondExtractionNewFolder(fs, archive, es);
    forall k | 0 <= k < |es'|
      ensures !WritesTo(root', es'[k], p)
    {
      TargetOutsideSibling(root, root', es'[k].name);
    }
    FilesUntouched(first, root', es', p);
  }
}

=== FILE: filesystem.dfy ===
/** The part of the host filesystem extraction reads and changes: a set of
    directories and a map from file paths to contents. The root [] always
    exists and is not listed. */
module FileSystems {
  import opened Paths

  newtype byte = x: int | 0 <= x < 0x100

  type Bytes = seq<byte>

  datatype FileSystem = FileSystem(dirs: set<Path>, files: map<Path, Bytes>)

  /** `File.exists()`: a directory or a file is there. */
  predicate Exists(fs: FileSystem, p: Path): (r: bool)
    ensures r && WellFormed(fs) ==> forall i :: 0 < i < |p| ==> p[..i] in fs.dirs
  {
    p in fs.dirs || p in fs.files
  }

  /** Every directory's and every file's ancestors are directories. */
  ghost predicate WellFormed(fs: FileSystem) {
    && (forall d, i :: d in fs.dirs && 0 < i < |d| ==> d[..i] in fs.dirs)
    && (forall f, i :: f in fs.files && 0 < i < |f| ==> f[..i] in fs.dirs)
  }

  /** The names present in directory `dir`: what `new File(dir, c).exists()`
      answers true for, taking `c` as a single component. */
  function Children(fs: FileSystem, dir: Path): (names: set<string>)
    ensures forall c :: c in names <==> Exists(fs, dir + [c])
  {
    var here := set p | p in fs.dirs + fs.files.Keys && |p| == |dir| + 1 && p[..|dir|] == dir;
    assert forall c :: Exists(fs, dir + [c]) ==> dir + [c] in here;
    assert forall p :: p in here ==> p == dir + [p[|dir|]];
    set p | p in here :: p[|dir|]
  }

  /** `File.mkdirs()`: `p` and every missing ancestor become directories;
      files and every other directory stay as they were. */
  function Mkdirs(fs: FileSystem, p: Path): (r: FileSystem)
    ensures r.files == fs.files
    ensures forall i :: 0 < i <= |p| ==> p[..i] in r.dirs
    ensures fs.dirs <= r.dirs
    ensures forall d :: d in r.dirs && d !in fs.dirs ==> 0 < |d| && d <= p
  {
    FileSystem(fs.dirs + Ancestors(p), fs.files)
  }

  /** `File.delete()` of a file: it is gone, nothing else changes. */
  function Delete(fs: FileSystem, p: Path): (r: FileSystem)
    ensures p !in r.files && r.dirs == fs.dirs
    ensures forall q :: q != p ==> (q in r.files <==> q in fs.files)
    ensures forall q :: q != p && q in fs.files ==> r.files[q] == fs.files[q]
  {
    fs.(files := fs.files - {p})
  }

  /** `Files.copy(in, p)` without REPLACE_EXISTING: the target must not be a
      file yet; afterwards it holds exactly `data`, nothing else changes. */
  function Create(fs: FileSystem, p: Path, data: Bytes): (r: FileSystem)
    requires p !in fs.files
    ensures p in r.files && r.files[p] == data && r.dirs == fs.dirs
    ensures forall q :: q != p ==> (q in r.files <==> q in fs.files)
    ensures forall q :: q != p && q in fs.files ==> r.files[q] == fs.files[q]
  {
    fs.(files := fs.files[p := data])
  }

  /** Making a directory chain keeps a well-formed filesystem well-formed. */
  lemma MkdirsPreservesWellFormed(fs: FileSystem, p: Path)
    requires WellFormed(fs)
    ensures WellFormed(Mkdirs(fs, p))
  {
    var r := Mkdirs(fs, p);
    forall d, i | d in r.dirs && 0 < i < |d|
      ensures d[..i] in r.dirs
    {
      if d !in fs.dirs {
        assert d[..i] == p[..i];
      }
    }
  }
}

=== FILE: paths.dfy ===
/** Paths as java.io.File sees them on a host whose only separator is '/'.

    A path is the sequence of its components from the filesystem root, so []
    is "/" itself. `new File(base, name)` appends the '/'-separated segments of
    `name` to `base`, dropping empty segments the way File normalises repeated
    and trailing separators. A '\' is an ordinary character of a component. */
module Paths {
  import Strings

  type Path = seq<string>

  /** A single, non-empty, separator-free name. */
  predicate IsComponent(c: string) {
    c != "" && '/' !in c
  }

  predicate AreComponents(cs: seq<string>) {
    forall i :: 0 <= i < |cs| ==> IsComponent(cs[i])
  }

  /** The non-empty '/'-separated segments of a relative name, in order. */
  function Components(name: string): (cs: seq<string>)
    ensures AreComponents(cs)
    decreases |name|
  {
    var i := Strings.LastIndexOf(name, '/');
    if i < 0 then
      (if name == "" then [] else [name])
    else
      Components(name[..i]) + (if i == |name| - 1 then [] else [name[i + 1..]])
  }

  /** The components written out again with single separators. */
  function Join(cs: seq<string>): string
  {
    if |cs| == 0 then ""
    else if |cs| == 1 then cs[0]
    else Join(cs[..|cs| - 1]) + "/" + cs[|cs| - 1]
  }

  /** Splitting a joined component list gives the list back. */
  lemma {:induction false} ComponentsOfJoin(cs: seq<string>)
    requires AreComponents(cs)
    ensures Components(Join(cs)) == cs
  {
    if |cs| == 1 {
      ComponentsOfPlainName(cs[0]);
    } else if |cs| > 1 {
      var front, last := cs[..|cs| - 1], cs[|cs| - 1];
      assert Components(Join(front)) == front by {
        AreComponentsFront(cs);
        ComponentsOfJoin(front);
      }
      assert Components(Join(cs)) == front + [last] by {
        ComponentsAppend(Join(front), last);
      }
      assert cs == front + [last];
    }
  }

  lemma AreComponentsFront(cs: seq<string>)
    requires AreComponents(cs) && |cs| > 0
    ensures AreComponents(cs[..|cs| - 1])
  {
    var front := cs[..|cs| - 1];
    forall i | 0 <= i < |front| ensures IsComponent(front[i]) {
      assert front[i] == cs[i];
    }
  }

  /** A separator followed by one more component adds that component. */
  lemma ComponentsAppend(a: string, b: string)
    requires IsComponent(b)
    ensures Components(a + "/" + b) == Components(a) + [b]
  {
    var s := a + "/" + b;
    assert s[..|a|] == a;
    assert s[|a| + 1..] == b;
    Strings.LastIndexOfUnique(s, '/', |a|);
  }

  /** A trailing separator adds nothing. Every name either has no separator
      (ComponentsOfPlainName) or ends in one followed by a separator-free
      part, empty (ComponentsTrailing) or not (ComponentsAppend); these three
      fix Components on every name. */
  lemma ComponentsTrailing(a: string)
    ensures Components(a + "/") == Components(a)
  {
    var s := a + "/";
    assert s[..|a|] == a;
    Strings.LastIndexOfUnique(s, '/', |a|);
  }

  /** A name without separators is a single component, or none when empty. */
  lemma ComponentsOfPlainName(name: string)
    requires '/' !in name
    ensures Components(name) == if name == "" then [] else [name]
  {
  }

  /** `new File(base, name)`. */
  function Resolve(base: Path, name: string): (p: Path)
    ensures base <= p
    ensures p[|base|..] == Components(name)
  {
    base + Components(name)
  }

  /** `getParentFile()`; only the root has none. */
  function Parent(p: Path): (r: Path)
    requires |p| > 0
    ensures r <= p && |r| == |p| - 1
  {
    p[..|p| - 1]
  }

  /** `p` and every ancestor of `p` below the root. */
  function Ancestors(p: Path): (r: set<Path>)
    ensures forall d :: d in r <==> 0 < |d| <= |p| && d == p[..|d|]
  {
    set i | 1 <= i <= |p| :: p[..i]
  }

  /** MCUnzip.getEntryName: the part of an entry name after its last '/', or,
      when it has none, after its last '\', or else the whole name. */
  function EntryName(name: string): (r: string)
    ensures |r| <= |name| && r == name[|name| - |r|..]
    ensures '/' !in r
    ensures '/' in name ==> name[|name| - |r| - 1] == '/'
    ensures '/' !in name ==> '\\' !in r
    ensures '/' !in name && '\\' in name ==> name[|name| - |r| - 1] == '\\'
    ensures '/' !in name && '\\' !in name ==> r == name
  {
    var pos := Strings.LastIndexOf(name, '/');
    if pos >= 0 then name[pos + 1..]
    else
      var pos' := Strings.LastIndexOf(name, '\\');
      if pos' >= 0 then name[pos' + 1..] else name
  }

  /** For a name that does not end in '/' and uses '/' whenever it uses '\',
      getEntryName yields exactly its last path component. */
  lemma LastComponentIsEntryName(name: string)
    requires name != "" && name[|name| - 1] != '/'
    requires '/' in name || '\\' !in name
    ensures var cs := Components(name); |cs| > 0 && cs[|cs| - 1] == EntryName(name)
  {
  }

  /** A non-empty entry name can only come from a name with at least one component. */
  lemma EntryNameHasComponent(name: string)
    requires EntryName(name) != ""
    ensures |Components(name)| > 0
  {
  }

  /** A name with no component has an empty entry name: it is empty or all separators. */
  lemma EntryNameWithoutComponents(name: string)
    ensures |Components(name)| == 0 ==> EntryName(name) == ""
  {
    if EntryName(name) != "" {
      EntryNameHasComponent(name);
    }
  }

  /** A name written with single '/' separators only: no leading, trailing or
      doubled '/', no '\', and no `.` or `..` component. */
  predicate IsPlainName(name: string) {
    '\\' !in name && |Components(name)| > 0 && Join(Components(name)) == name && IsNormal(Components(name))
  }

  /** A joined, non-empty component list is non-empty and does not end in '/'. */
  lemma JoinEnd(cs: seq<string>)
    requires AreComponents(cs) && |cs| > 0
    ensures Join(cs) != "" && Join(cs)[|Join(cs)| - 1] != '/'
  {
    var last := cs[|cs| - 1];
    assert IsComponent(last);
    if |cs| > 1 {
      assert Join(cs)[|Join(cs)| - 1] == last[|last| - 1];
    }
  }

  /** `../leaf` is the parent step followed by the leaf. */
  lemma DotDotNameComponents(leaf: string)
    requires IsComponent(leaf)
    ensures Components("../" + leaf) == ["..", leaf]
  {
    assert "../" + leaf == ".." + "/" + leaf;
    ComponentsAppend("..", leaf);
    ComponentsOfPlainName("..");
  }

  lemma DotDotNameEntryName(leaf: string)
    requires IsComponent(leaf)
    ensures EntryName("../" + leaf) == leaf
  {
    var name := "../" + leaf;
    assert name[2] == '/' && name[3..] == leaf;
    Strings.LastIndexOfUnique(name, '/', 2);
  }

  // How the host resolves a pathname when it opens it. java.io.File keeps `.`
  // and `..` as ordinary components; the operating system resolves them.

  /** No `.` or `..` component: the host resolves the path to itself. */
  predicate IsNormal(p: Path) {
    forall i :: 0 <= i < |p| ==> p[i] != "." && p[i] != ".."
  }

  /** One component of the walk: `.` stays, `..` goes up (never above the
      root), any other name goes down into it. */
  function Step(at: Path, c: string): Path {
    if c == "." then at
    else if c == ".." then (if |at| == 0 then at else at[..|at| - 1])
    else at + [c]
  }

  /** Walking the components `cs` from `at`. */
  function Walk(at: Path, cs: seq<string>): (r: Path)
    ensures IsNormal(at) ==> IsNormal(r)
    decreases |cs|
  {
    if |cs| == 0 then at else Walk(Step(at, cs[0]), cs[1..])
  }

  /** The path the host opens for pathname `p`. */
  function Normalize(p: Path): (r: Path)
    ensures IsNormal(r)
  {
    Walk([], p)
  }

  /** Walking normal components just appends them. */
  lemma {:induction false} WalkNormal(at: Path, cs: seq<string>)
    requires IsNormal(cs)
    ensures Walk(at, cs) == at + cs
    decreases |cs|
  {
    if |cs| > 0 {
      assert IsNormal(cs[1..]) by {
        forall i | 0 <= i < |cs[1..]| ensures cs[1..][i] != "." && cs[1..][i] != ".." {
          assert cs[1..][i] == cs[i + 1];
        }
      }
      WalkNormal(at + [cs[0]], cs[1..]);
      assert at + [cs[0]] + cs[1..] == at + cs;
    }
  }

  /** A normal path is its own resolution. */
  lemma NormalizeNormal(p: Path)
    ensures IsNormal(p) ==> Normalize(p) == p
  {
    if IsNormal(p) {
      WalkNormal([], p);
    }
  }

  /** Walking a concatenation is walking its parts one after the other. */
  lemma {:induction false} WalkConcat(at: Path, xs: seq<string>, ys: seq<string>)
    ensures Walk(at, xs + ys) == Walk(Walk(at, xs), ys)
    decreases |xs|
  {
    if |xs| > 0 {
      assert (xs + ys)[1..] == xs[1..] + ys;
      WalkConcat(Step(at, xs[0]), xs[1..], ys);
    } else {
      assert xs + ys == ys;
    }
  }

  /** Without `..` the walk never leaves `at`, and a last component other
      than `.` takes it strictly below `at`. */
  lemma {:induction false} WalkStaysBelow(at: Path, cs: seq<string>)
    requires forall i :: 0 <= i < |cs| ==> cs[i] != ".."
    ensures at <= Walk(at, cs)
    ensures |cs| > 0 && cs[|cs| - 1] != "." ==> |Walk(at, cs)| > |at|
    decreases |cs|
  {
    if |cs| > 0 {
      var next := Step(at, cs[0]);
      assert at <= next;
      assert forall i :: 0 <= i < |cs[1..]| ==> cs[1..][i] == cs[i + 1];
      WalkStaysBelow(next, cs[1..]);
      if |cs| > 1 {
        assert cs[1..][|cs[1..]| - 1] == cs[|cs| - 1];
      }
    }
  }

  /** Going up one level and then down into `leaf`. */
  lemma WalkUpThenDown(at: Path, leaf: string)
    requires |at| > 0 && leaf != "." && leaf != ".."
    ensures Walk(at, ["..", leaf]) == at[..|at| - 1] + [leaf]
  {
    var up := at[..|at| - 1];
    assert ["..", leaf][1..] == [leaf];
    assert Walk(at, ["..", leaf]) == Walk(up, [leaf]);
    assert [leaf][1..] == [];
    assert Walk(up, [leaf]) == Walk(up + [leaf], []);
  }
}

=== FILE: strings.dfy ===
/** Character search on strings, as java.lang.String's indexOf and lastIndexOf
    with a one-character argument: a position, or -1 when the character is absent. */
module Strings {

  /** The first position of `c` in `s`, or -1. */
  function IndexOf(s: string, c: char): (r: int)
    ensures -1 <= r < |s|
    ensures r == -1 <==> c !in s
    ensures r >= 0 ==> s[r] == c && c !in s[..r]
  {
    if |s| == 0 then -1
    else if s[0] == c then 0
    else
      var k := IndexOf(s[1..], c);
      if k == -1 then -1
      else
        assert s[..k + 1] == [s[0]] + s[1..][..k];
        k + 1
  }

  /** The last position of `c` in `s`, or -1. */
  function LastIndexOf(s: string, c: char): (r: int)
    ensures -1 <= r < |s|
    ensures r == -1 <==> c !in s
    ensures r >= 0 ==> s[r] == c && c !in s[r + 1..]
  {
    if |s| == 0 then -1
    else if s[|s| - 1] == c then |s| - 1
    else
      var k := LastIndexOf(s[..|s| - 1], c);
      assert s == s[..|s| - 1] + [s[|s| - 1]];
      k
  }

  /** Any position holding `c` with no `c` after it is the one LastIndexOf finds. */
  lemma LastIndexOfUnique(s: string, c: char, i: nat)
    requires i < |s| && s[i] == c && c !in s[i + 1..]
    ensures LastIndexOf(s, c) == i
  {
  }
}
